=== FILE: README.md ===
# select-opened-doc — a Dafny model of its gesture and collapse logic

The select-opened-doc plugin for SiYuan takes over the "focus current document"
button of the document-tree sidebar. A left-click, right-click, tap or long
press on the button becomes an intent (`left`, `right`, `click`, `longPress`).
An intent equal to one of the two configured fold keys first collapses the
open top-level entries of every document list, then reveals the open document.
Any other intent only reveals it. The reveal clicks the button programmatically
so that the host's native handler runs. The plugin detaches its own left-click
handler around that click and re-attaches it on the next tick. On desktop, the
button's hover label can be rewritten to describe the current mode.

This project models that logic with immutable datatypes and pure functions.
DOM nodes, timers and host calls become abstract values and input events.

- `common.dfy`, module `Common`: `Option`, standing for JavaScript's missing values.
- `config.dfy`, module `Config`: the settings record and the defaulting done on load.
- `gesture.dfy`, module `Gesture`: the classifier from mouse and touch events to intents. This includes the long-press timer and the `isLongPress` flag.
- `filetree.dfy`, module `FileTree`: the one-level collapse pass over the sidebar's top-level lists, and an index-local reference reading of it.
- `label.dfy`, module `ButtonLabel`: the hover-label rewriter.
- `plugin.dfy`, module `Plugin`: wiring at layout-ready, the dispatch, the reveal with its detach/re-attach protocol, settings confirmation, and the invariant over runs of inputs.

The model follows what the code does, not what its comments plan:

- The TODO at src/index.ts:199 plans to collapse only the branches that are off the active document's path, using `getActiveEditor`. The code does no such pruning: the collapse branch closes every open top-level entry of every list, and `getActiveEditor` is imported but never called. So there is no ancestor-path parsing and no path-based invariant.
- Nothing restores the label on unload or uninstall.
- The fold keys are stored as free strings. They are compared with the intent's name, so a stored value outside `left`/`right`/`click`/`longPress` simply never matches.

Behaviour of the code that the model keeps:

- An entry (`li.b3-list-item`) with a toggle but no arrow element makes the pass throw, because the arrow is null. Lists already visited stay collapsed, the rest are untouched, and no reveal follows.
- A second `touchstart` before `touchend` overwrites the stored timer handle without clearing the first timer. Two overlapping touches therefore emit `click` and then `longPress` (`Gesture.OverlappingTouches`).
- A user click that arrives while the left-click handler is detached is ignored by the plugin.
- Confirming settings on desktop when the button was never found throws, because the button is null.

## Model

| member | source | states |
|---|---|---|
| Config.Fill | src/index.ts:24-27 | every field ends up present; a present field is kept as is; a missing fold key becomes `right` / `longPress`; a missing label flag becomes true exactly when the language is zh_CN, zh_CHT or en_US |
| Config.Load | src/index.ts:23-27 | a falsy stored value yields the full default record; each field present in a stored record is what the plugin then uses, and each field a stored record lacks gets its own default (`right`, `longPress`, label rewriting on iff the language is translated) |
| Config.FillIdempotent | src/index.ts:24-27 | defaulting twice, even under another UI language, gives what defaulting once gives |
| Config.DefaultLabelRewrite | src/index.ts:23-27 | the label-rewrite default is on iff the language is one of the three translated ones; an empty record defaults exactly like a falsy value |
| Config.SavedRecordKept | src/index.ts:23-27 | a complete record, as the settings panel saves it, is used exactly as saved |
| Gesture.Step | src/index.ts:149-183 | mouse click gives `left` and context menu gives `right`; `longPress` is emitted iff an armed timer fires; `click` is emitted iff touchend comes with the flag down; touchend always clears the flag and disarms the stored timer; a fired timer is disarmed; the flag only rises with a `longPress`; mouse events and a stale firing change nothing; touchstart overwrites the handle with a fresh armed timer and keeps the flag and the armed timers; touchend and a firing disarm no other timer |
| Gesture.Run | src/index.ts:165-183 | over any event sequence, at most one intent per event, and timer bookkeeping stays valid |
| Gesture.TapEmitsClick | src/index.ts:165-183 | touchstart then touchend, with no firing between, emits exactly `[click]`, disarms the timer it armed, and leaves the flag down |
| Gesture.HoldEmitsLongPress | src/index.ts:165-183 | the firing of the armed timer emits exactly `[longPress]` and raises the flag; the following touchend emits nothing more, lowers the flag, and leaves no timer of this gesture armed |
| Gesture.TimerFiresOnce | src/index.ts:168-171 | an armed timer's firing emits `longPress`; after it, a later firing of the same timer emits nothing, whatever events come between |
| Gesture.FiredStaysDisarmed | src/index.ts:168-177 | a timer that has fired or been cleared is never armed again, over any run of events |
| Gesture.GesturesClassified | src/index.ts:159-183 | any run of single-finger taps and holds emits exactly one intent per gesture, in order (`click` for a tap, `longPress` for a hold), and ends idle |
| Gesture.OverlappingTouches | src/index.ts:165-177 | two overlapping touches emit `click` and then `longPress`, because the second touchstart overwrites the stored handle |
| FileTree.Close | src/index.ts:210-211 | an open entry gets a closed arrow with its identity kept; any other child is returned unchanged |
| FileTree.FirstFault | src/index.ts:206-210 | the position of the first entry whose arrow lookup would throw, or the length when none would |
| FileTree.CollapseList | src/index.ts:205-219 | the pass over one list throws iff some entry has a toggle but no arrow; it never adds children; when it completes, no open entry remains |
| FileTree.CollapseListCharacterized | src/index.ts:203-219 | the snapshot walk equals the reference reading: before the first faulty entry, every child except a `ul` right after an open entry is kept in order, open entries closed; from the faulty entry on, the list is untouched |
| FileTree.CollapseListMatchesExpected | src/index.ts:205-219 | on a list with no faulty entry, the pass is exactly the reference reading |
| FileTree.NothingOpenUntouched | src/index.ts:205-219 | a list with no open and no faulty entry comes through unchanged |
| FileTree.CollapseListIdempotent | src/index.ts:203-219 | a second pass over one list changes nothing, whether or not the first one threw |
| FileTree.CollapseAll | src/index.ts:200-223 | keeps the number of lists; throws iff some list holds a faulty entry; when it completes, each list is its own pass result |
| FileTree.CollapseAllStopsAtThrow | src/index.ts:203-223 | when list i throws, the lists before it are collapsed, list i keeps its partial pass, and the lists after it are untouched |
| FileTree.CollapseAllIdempotent | src/index.ts:200-223 | collapsing every list twice leaves them as collapsing once does |
| ButtonLabel.Rewrite | src/index.ts:133-147 | on mobile, nothing changes; the first call records the current label; with rewriting on, the label is the "right" text iff the desktop fold key is `right`, and the "left" text otherwise; with rewriting off, the first call keeps the label and later calls put back the recorded one |
| ButtonLabel.KeepsOriginal | src/index.ts:138-146 | later calls never change the recorded label; after a last call with rewriting off, the recorded label is shown |
| ButtonLabel.OriginalRestored | src/index.ts:138-146 | from the first call on, turning rewriting off brings back the label the button had before the plugin loaded |
| ButtonLabel.NeverRewrittenWhenOff | src/index.ts:140-146 | with rewriting off from the start, the label after every call equals the original |
| ButtonLabel.RewriteIdempotent | src/index.ts:140-146 | applying the same configuration twice leaves the label as applying it once does |
| ButtonLabel.MobileUntouched | src/index.ts:134-135 | on mobile, any number of calls leaves the label and the recorded label as they were |
| Plugin.LayoutReady | src/index.ts:89-105 | the plugin keeps the given settings, lists and platform; with a button, all handlers are attached and the label is what the first label call (line 105) makes of the found label; without one, nothing is attached; the invariant holds |
| Plugin.Expand | src/index.ts:231-257 | without a button, nothing; with one, the left-click handler is detached, exactly one reveal happens, and one re-attach is scheduled; tree, settings, label and gesture state are unchanged |
| Plugin.Reattach | src/index.ts:253-256 | a scheduled re-attach attaches the left-click handler and uses up one scheduled callback; nothing else changes |
| Plugin.CollapseDocTree | src/index.ts:191-225 | the tree changes only on the collapse branch, which is taken iff the intent names a fold key; the branch then applies the collapse pass to every list; it throws iff that pass throws; without a throw, with a button, exactly one reveal follows on either branch |
| Plugin.Handle | src/index.ts:149-183 | a button event its handler receives goes through the classifier, and any intent it emits goes to the dispatch; a button event with no attached handler changes nothing; a deferred step is the re-attach; confirming settings (lines 76-86) installs the record, reruns the label rewrite, leaves tree, classifier, listener, reveal count, platform and button alone, and throws iff on desktop without a button, in which case the label is untouched |
| Plugin.HandlePreservesInv | src/index.ts:231-256 | every input keeps the invariant: the left-click handler is attached or a re-attach is pending whenever the button exists |
| Plugin.InvAlways | src/index.ts:231-256 | the invariant holds after any run of inputs |
| Plugin.SettleAttaches | src/index.ts:253-256 | once the scheduled re-attaches have run, the left-click handler is attached again, with the tree and reveal count unchanged |
| Plugin.Activate | src/index.ts:236-252 | the programmatic activation may only happen once the left-click handler is detached, and counts one reveal |
| Plugin.DetachedClickIgnored | src/index.ts:236-242 | a click while the handler is detached reaches no plugin handler; with `Activate`'s precondition, the programmatic click cannot re-enter the dispatch |
| Plugin.ExpandProtocol | src/index.ts:231-257 | the reveal adds one reveal count; a click before the deferred step is ignored; after the deferred step, the state equals the original one except that the handler is attached and one reveal was added |
| Plugin.DispatchTwiceSameTree | src/index.ts:191-225 | dispatching the same intent twice in a row leaves the tree as the first dispatch left it; this holds in the model, where the host's reveal does not touch the lists |
| Plugin.DefaultFoldKeys | src/index.ts:193-196 | under the default configuration, an intent takes the collapse branch iff it is `right` or `longPress` |
| Plugin.MouseDispatchWithDefaults | src/index.ts:149-157 | under the defaults, a right-click collapses every list and reveals once; an attached left-click only reveals |
| Plugin.HoldDispatchesOnce | src/index.ts:165-183 | a hold on a found button dispatches `longPress` exactly once, at the timer's firing: the tree gets the collapse pass iff `longPress` is a fold key, there is one reveal unless the pass throws, and the touchend leaves the flag down |
| Plugin.TapDispatchesOnce | src/index.ts:174-183 | a tap on a found button with an idle classifier dispatches `click` exactly once: the tree gets the collapse pass iff `click` is a fold key, and there is one reveal unless the pass throws |

## Left out

- Settings panel construction (src/index.ts:30-73): pure UI. Only its confirm step is modelled, as `Plugin.Handle` on `ApplySetting`.
- Persistence (`loadData`, `saveData`, `removeData`): host I/O. The load result enters as `Config.Stored`. The awaited save is modelled as installing the record.
- Listener removal in `onunload` and `uninstall`: DOM plumbing with no logic. A re-attach still pending at unload would attach the handler again; that case is not modelled.
- The two `querySelector` fallbacks for the button and the list selector: modelled as "button found or not" and a given sequence of top-level lists.
- Real time: the 300 ms long-press delay, the zero-delay re-attach and `requestAnimationFrame` are events, not clocks. The fragment emptied in the animation frame is already detached from the list, so the model drops child lists at the moment they are moved.
- The synthetic `MouseEvent` fallback for buttons without `click()`: it dispatches the same click, so it is modelled by the same activation.
- The host's reveal itself: only the number of activations is counted. Its effect on the tree is not modelled.
- Logging and i18n lookups: the mode strings are opaque distinct constants.
- `preventDefault` is not modelled as a call, but the model relies on its effect. Because the touch handlers suppress the platform's synthesized mouse events, no `MouseClick` follows a touch gesture, and the browser's context menu does not open on right-click.
- `getAttribute` returning null for a button without `aria-label`: labels are modelled as strings.
- Path-based pruning and an ancestor-path invariant: only planned in the TODO at src/index.ts:199, not implemented, so not modelled.

=== FILE: common.dfy ===
/** Small shared datatypes. */
module Common {

  /** A value that may be missing: JavaScript's `undefined`/`null` is `None`. */
  datatype Option<+T> = None | Some(value: T)
}

=== FILE: config.dfy ===
/**
 * The plugin's settings record and the defaulting done when the plugin loads
 * (src/index.ts:23-27). The host store hands back whatever was saved last; a
 * first run yields a falsy value, and a record saved by an older version may
 * lack fields. Defaulting fills a field only where it is missing (`??=`), so
 * values already present, even unusual ones, are kept.
 */
module Config {
  import opened Common

  /** A settings record as read from the store: any field may be absent. */
  datatype Partial = Partial(
    desktopFoldKey: Option<string>,
    mobileFoldKey: Option<string>,
    changeButtonText: Option<bool>)

  /** What the store holds under the plugin's key: a falsy value or a record. */
  datatype Stored = Falsy | Record(fields: Partial)

  /** A complete settings record, as every handler reads it. */
  datatype Config = Config(
    desktopFoldKey: string,
    mobileFoldKey: string,
    changeButtonText: bool)

  const DefaultDesktopFoldKey: string := "right"
  const DefaultMobileFoldKey: string := "longPress"

  /** The UI languages the plugin ships label strings for. */
  const TranslatedLanguages: seq<string> := ["zh_CN", "zh_CHT", "en_US"]

  predicate Complete(p: Partial) {
    p.desktopFoldKey.Some? && p.mobileFoldKey.Some? && p.changeButtonText.Some?
  }

  /** `x ??= d` on one field. */
  function OrDefault<T>(x: Option<T>, d: T): Option<T> {
    if x.Some? then x else Some(d)
  }

  /** The three `??=` assignments of the load step, for UI language `lang`. */
  function Fill(p: Partial, lang: string): (r: Partial)
    ensures Complete(r)
    ensures p.desktopFoldKey.Some? ==> r.desktopFoldKey == p.desktopFoldKey
    ensures p.mobileFoldKey.Some? ==> r.mobileFoldKey == p.mobileFoldKey
    ensures p.changeButtonText.Some? ==> r.changeButtonText == p.changeButtonText
    ensures p.desktopFoldKey.None? ==> r.desktopFoldKey == Some(DefaultDesktopFoldKey)
    ensures p.mobileFoldKey.None? ==> r.mobileFoldKey == Some(DefaultMobileFoldKey)
    ensures p.changeButtonText.None? ==>
              (r.changeButtonText == Some(true) <==> lang in TranslatedLanguages)
  {
    Partial(
      OrDefault(p.desktopFoldKey, DefaultDesktopFoldKey),
      OrDefault(p.mobileFoldKey, DefaultMobileFoldKey),
      OrDefault(p.changeButtonText, lang in TranslatedLanguages))
  }

  /** The whole load step: a falsy stored value is first replaced by `{}` (`||=`). */
  function Load(stored: Stored, lang: string): (c: Config)
    ensures stored.Falsy? ==>
              c == Config(DefaultDesktopFoldKey, DefaultMobileFoldKey, lang in TranslatedLanguages)
    ensures stored.Record? && stored.fields.desktopFoldKey.Some? ==>
              c.desktopFoldKey == stored.fields.desktopFoldKey.value
    ensures stored.Record? && stored.fields.mobileFoldKey.Some? ==>
              c.mobileFoldKey == stored.fields.mobileFoldKey.value
    ensures stored.Record? && stored.fields.changeButtonText.Some? ==>
              c.changeButtonText == stored.fields.changeButtonText.value
    ensures stored.Record? && stored.fields.desktopFoldKey.None? ==>
              c.desktopFoldKey == DefaultDesktopFoldKey
    ensures stored.Record? && stored.fields.mobileFoldKey.None? ==>
              c.mobileFoldKey == DefaultMobileFoldKey
    ensures stored.Record? && stored.fields.changeButtonText.None? ==>
              (c.changeButtonText <==> lang in TranslatedLanguages)
  {
    var record := if stored.Falsy? then Partial(None, None, None) else stored.fields;
    var full := Fill(record, lang);
    Config(full.desktopFoldKey.value, full.mobileFoldKey.value, full.changeButtonText.value)
  }

  /** Defaulting twice, even under another UI language, equals defaulting once. */
  lemma FillIdempotent(p: Partial, lang: string, lang': string)
    ensures Fill(Fill(p, lang), lang') == Fill(p, lang)
  {
  }

  /** The label-rewrite default is on exactly for the translated languages. */
  lemma DefaultLabelRewrite(lang: string)
    ensures Load(Falsy, lang).changeButtonText <==> lang in ["zh_CN", "zh_CHT", "en_US"]
    ensures Load(Record(Partial(None, None, None)), lang) == Load(Falsy, lang)
  {
  }

  /** A record saved by the settings panel is used exactly as saved. */
  lemma SavedRecordKept(c: Config, lang: string)
    ensures Load(Record(Partial(Some(c.desktopFoldKey), Some(c.mobileFoldKey),
                                Some(c.changeButtonText))), lang) == c
  {
  }
}

=== FILE: filetree.dfy ===
/**
 * The collapse pass over the sidebar's top-level document lists
 * (src/index.ts:200-222). Each list's children are walked over a snapshot: an
 * `li.b3-list-item` whose toggle is present and whose arrow is open gets its
 * arrow closed, and the `ul` right after it (its child list) is detached. The
 * pass ignores the active document entirely: every open top-level entry of
 * every list is collapsed.
 *
 * Because only the `ul` directly after an already visited entry is ever
 * detached, the live `nextElementSibling` of the i-th snapshot child is always
 * the (i+1)-th snapshot child, so the pass is index-local; `Expected` states
 * that reading and `CollapseListCharacterized` proves the walk agrees with it.
 */
module FileTree {
  import opened Common

  /**
   * A child of a tree list: a document entry (`li.b3-list-item`), a nested
   * list (`ul`), or anything else. `arrow` is the entry's arrow element:
   * `None` when it has none, otherwise whether it carries the open class.
   */
  datatype Item =
    | Entry(id: nat, hasToggle: bool, arrow: Option<bool>)
    | SubList(id: nat)
    | Other(id: nat)

  /** An entry the pass collapses. */
  predicate IsOpen(x: Item) {
    x.Entry? && x.hasToggle && x.arrow == Some(true)
  }

  /** An entry with a toggle but no arrow: reading its arrow's class list throws. */
  predicate Faulty(x: Item) {
    x.Entry? && x.hasToggle && x.arrow.None?
  }

  /** Closing the arrow of an open entry; every other child is left as it is. */
  function Close(x: Item): (y: Item)
    ensures !IsOpen(y) && (Faulty(y) <==> Faulty(x))
    ensures !IsOpen(x) ==> y == x
    ensures IsOpen(x) ==> y.Entry? && y.id == x.id && y.hasToggle && y.arrow == Some(false)
  {
    if IsOpen(x) then x.(arrow := Some(false)) else x
  }

  /** The i-th child is the child list detached because the child before it is open. */
  predicate Detached(items: seq<Item>, i: int) {
    0 < i < |items| && items[i].SubList? && IsOpen(items[i - 1])
  }

  /**
   * Reference reading of a pass that does not throw, for children `i` up to
   * `end`: each child survives unless detached, and survivors are closed.
   */
  function Expected(items: seq<Item>, i: nat, end: nat): seq<Item>
    requires i <= end <= |items|
    decreases end - i
  {
    if i == end then []
    else (if Detached(items, i) then [] else [Close(items[i])]) + Expected(items, i + 1, end)
  }

  /** The index of the first faulty child, or the length when there is none. */
  function FirstFault(items: seq<Item>): (f: nat)
    ensures f <= |items|
    ensures f < |items| ==> Faulty(items[f])
    ensures forall k :: 0 <= k < f ==> !Faulty(items[k])
  {
    if |items| == 0 then 0
    else if Faulty(items[0]) then 0
    else 1 + FirstFault(items[1..])
  }

  /** The children of one list after the pass, and whether the pass threw. */
  datatype Pass = Pass(items: seq<Item>, threw: bool)

  /**
   * One list's pass. A throw stops the walk: children already handled keep
   * their new state, the faulty child and everything after it are untouched.
   */
  function CollapseList(items: seq<Item>): (r: Pass)
    ensures r.threw <==> FirstFault(items) < |items|
    ensures |r.items| <= |items|
    ensures !r.threw ==> forall k :: 0 <= k < |r.items| ==> !IsOpen(r.items[k])
    decreases |items|
  {
    if |items| == 0 then Pass([], false)
    else if Faulty(items[0]) then Pass(items, true)
    else if IsOpen(items[0]) && |items| > 1 && items[1].SubList? then
      var rest := CollapseList(items[2..]);
      Pass([Close(items[0])] + rest.items, rest.threw)
    else
      var rest := CollapseList(items[1..]);
      Pass([Close(items[0])] + rest.items, rest.threw)
  }

  /** The pass from child `i` on, when `i` is not a detached child list. */
  lemma {:induction false} CollapseFrom(items: seq<Item>, i: nat, f: nat)
    requires f == FirstFault(items)
    requires i <= f
    requires i == 0 || !Detached(items, i)
    ensures CollapseList(items[i..]).threw == (f < |items|)
    ensures CollapseList(items[i..]).items == Expected(items, i, f) + items[f..]
    decreases f - i
  {
    var tail := items[i..];
    if i == f {
      if f < |items| {
        assert Faulty(tail[0]);
      } else {
        assert tail == [];
      }
    } else if IsOpen(items[i]) && i + 1 < |items| && items[i + 1].SubList? {
      assert !Faulty(items[i + 1]);
      assert !Detached(items, i + 2);
      CollapseFrom(items, i + 2, f);
      CollapseSkipStep(items, i, f);
    } else {
      assert !Detached(items, i + 1);
      CollapseFrom(items, i + 1, f);
      CollapseKeepStep(items, i, f);
    }
  }

  /** An open entry followed by its child list: the entry is closed and the list dropped. */
  lemma {:induction false} CollapseSkipStep(items: seq<Item>, i: nat, f: nat)
    requires f <= |items| && i + 2 <= f
    requires !Faulty(items[i])
    requires i == 0 || !Detached(items, i)
    requires IsOpen(items[i]) && items[i + 1].SubList?
    requires CollapseList(items[i + 2..]).items == Expected(items, i + 2, f) + items[f..]
    ensures CollapseList(items[i..]).items == Expected(items, i, f) + items[f..]
    ensures CollapseList(items[i..]).threw == CollapseList(items[i + 2..]).threw
  {
    var c := Close(items[i]);
    var x := items[f..];
    var rest := CollapseList(items[i + 2..]);
    var e := Expected(items, i + 2, f);
    UnfoldSkip(items[i..]);
    assert items[i..][2..] == items[i + 2..];
    assert items[i..][0] == items[i];
    var whole := CollapseList(items[i..]);
    assert whole.items == [c] + rest.items;
    assert whole.threw == rest.threw;
    ExpectedAfterOpen(items, i, f);
    assert rest.items == e + x;
    ConsAssoc(c, e, x);
  }

  lemma ConsAssoc(c: Item, e: seq<Item>, x: seq<Item>)
    ensures [c] + (e + x) == ([c] + e) + x
  {
  }

  /** One step of the walk at an open entry followed by a child list. */
  lemma {:induction false} UnfoldSkip(tail: seq<Item>)
    requires |tail| > 1 && !Faulty(tail[0]) && IsOpen(tail[0]) && tail[1].SubList?
    ensures CollapseList(tail)
            == Pass([Close(tail[0])] + CollapseList(tail[2..]).items, CollapseList(tail[2..]).threw)
  {
  }

  /** One step of the walk at any other child that does not throw. */
  lemma {:induction false} UnfoldKeep(tail: seq<Item>)
    requires |tail| > 0 && !Faulty(tail[0]) && !(IsOpen(tail[0]) && |tail| > 1 && tail[1].SubList?)
    ensures CollapseList(tail)
            == Pass([Close(tail[0])] + CollapseList(tail[1..]).items, CollapseList(tail[1..]).threw)
  {
  }

  /** The reference reading at a child that is not detached. */
  lemma {:induction false} ExpectedKeep(items: seq<Item>, i: nat, f: nat)
    requires i < f <= |items| && !Detached(items, i)
    ensures Expected(items, i, f) == [Close(items[i])] + Expected(items, i + 1, f)
  {
  }

  /** The reference reading at an open entry followed by a child list. */
  lemma {:induction false} ExpectedAfterOpen(items: seq<Item>, i: nat, f: nat)
    requires i + 2 <= f <= |items|
    requires i == 0 || !Detached(items, i)
    requires IsOpen(items[i]) && items[i + 1].SubList?
    ensures Expected(items, i, f) == [Close(items[i])] + Expected(items, i + 2, f)
  {
    assert Detached(items, i + 1);
    assert Expected(items, i + 1, f) == Expected(items, i + 2, f);
  }

  /** Any other child before the first faulty one: it is kept, closed if open. */
  lemma {:induction false} CollapseKeepStep(items: seq<Item>, i: nat, f: nat)
    requires f <= |items| && i < f
    requires !Faulty(items[i])
    requires i == 0 || !Detached(items, i)
    requires !(IsOpen(items[i]) && i + 1 < |items| && items[i + 1].SubList?)
    requires CollapseList(items[i + 1..]).items == Expected(items, i + 1, f) + items[f..]
    ensures CollapseList(items[i..]).items == Expected(items, i, f) + items[f..]
    ensures CollapseList(items[i..]).threw == CollapseList(items[i + 1..]).threw
  {
    var c := Close(items[i]);
    var x := items[f..];
    var rest := CollapseList(items[i + 1..]);
    var e := Expected(items, i + 1, f);
    UnfoldKeep(items[i..]);
    assert items[i..][1..] == items[i + 1..];
    assert items[i..][0] == items[i];
    var whole := CollapseList(items[i..]);
    assert whole.items == [c] + rest.items;
    assert whole.threw == rest.threw;
    ExpectedKeep(items, i, f);
    assert rest.items == e + x;
    ConsAssoc(c, e, x);
  }

  /**
   * The walk over the snapshot agrees with the index-local reading: up to the
   * first faulty child, the children are those `Expected` keeps, closed; from
   * the faulty child on, the list is untouched; the pass throws iff there is one.
   */
  lemma {:induction false} CollapseListCharacterized(items: seq<Item>)
    ensures CollapseList(items)
            == Pass(Expected(items, 0, FirstFault(items)) + items[FirstFault(items)..],
                    FirstFault(items) < |items|)
  {
    CollapseFrom(items, 0, FirstFault(items));
    assert items[0..] == items;
  }

  /** On a list without faulty children, the pass is exactly the reference reading. */
  lemma {:induction false} CollapseListMatchesExpected(items: seq<Item>)
    requires forall k :: 0 <= k < |items| ==> !Faulty(items[k])
    ensures CollapseList(items) == Pass(Expected(items, 0, |items|), false)
  {
    CollapseListCharacterized(items);
  }

  /** A list with no open and no faulty entry comes through the pass unchanged. */
  lemma {:induction false} NothingOpenUntouched(items: seq<Item>)
    requires forall k :: 0 <= k < |items| ==> !IsOpen(items[k]) && !Faulty(items[k])
    ensures CollapseList(items) == Pass(items, false)
    decreases |items|
  {
    if |items| > 0 {
      NothingOpenUntouched(items[1..]);
      assert items == [items[0]] + items[1..];
    }
  }

  /** A second pass over the result changes nothing, whether or not the first one threw. */
  lemma {:induction false} CollapseListIdempotent(items: seq<Item>)
    ensures CollapseList(CollapseList(items).items) == CollapseList(items)
    decreases |items|
  {
    var r := CollapseList(items);
    if |items| > 0 && !Faulty(items[0]) {
      var head := Close(items[0]);
      var rest := if IsOpen(items[0]) && |items| > 1 && items[1].SubList?
                  then CollapseList(items[2..]) else CollapseList(items[1..]);
      if IsOpen(items[0]) && |items| > 1 && items[1].SubList? {
        CollapseListIdempotent(items[2..]);
      } else {
        CollapseListIdempotent(items[1..]);
      }
      assert r.items == [head] + rest.items;
      assert !Faulty(head) && !IsOpen(head) && Close(head) == head;
      assert r.items[1..] == rest.items;
    }
  }

  /** The lists after the whole pass, and whether some list's pass threw. */
  datatype AllPass = AllPass(lists: seq<seq<Item>>, threw: bool)

  /**
   * The pass over every top-level list in order. A throw leaves the remaining
   * lists untouched, since it propagates out of the loop.
   */
  function CollapseAll(lists: seq<seq<Item>>): (r: AllPass)
    ensures |r.lists| == |lists|
    ensures r.threw <==> exists i :: 0 <= i < |lists| && FirstFault(lists[i]) < |lists[i]|
    ensures !r.threw ==> forall i :: 0 <= i < |lists| ==> r.lists[i] == CollapseList(lists[i]).items
    decreases |lists|
  {
    if |lists| == 0 then AllPass([], false)
    else
      var first := CollapseList(lists[0]);
      if first.threw then AllPass([first.items] + lists[1..], true)
      else
        var rest := CollapseAll(lists[1..]);
        assert forall i :: 1 <= i < |lists| ==> lists[1..][i - 1] == lists[i];
        AllPass([first.items] + rest.lists, rest.threw)
  }

  /** A throw in list `i` leaves the lists before it collapsed and the lists after it as they were. */
  lemma {:induction false} CollapseAllStopsAtThrow(lists: seq<seq<Item>>, i: nat)
    requires i < |lists| && CollapseList(lists[i]).threw
    requires forall j :: 0 <= j < i ==> !CollapseList(lists[j]).threw
    ensures CollapseAll(lists).threw
    ensures CollapseAll(lists).lists[i] == CollapseList(lists[i]).items
    ensures forall j :: i < j < |lists| ==> CollapseAll(lists).lists[j] == lists[j]
    ensures forall j :: 0 <= j < i ==> CollapseAll(lists).lists[j] == CollapseList(lists[j]).items
    decreases i
  {
    var first := CollapseList(lists[0]);
    var tail := lists[1..];
    UnfoldAll(lists);
    if i > 0 {
      var rest := CollapseAll(tail);
      forall j | 0 <= j < i - 1 ensures !CollapseList(tail[j]).threw {
        assert tail[j] == lists[j + 1];
      }
      CollapseAllStopsAtThrow(tail, i - 1);
      ShiftedLists(lists, first.items, rest.lists);
    }
  }

  /** One step of the pass over all lists. */
  lemma {:induction false} UnfoldAll(lists: seq<seq<Item>>)
    requires |lists| > 0
    ensures CollapseList(lists[0]).threw ==>
              CollapseAll(lists) == AllPass([CollapseList(lists[0]).items] + lists[1..], true)
    ensures !CollapseList(lists[0]).threw ==>
              CollapseAll(lists)
              == AllPass([CollapseList(lists[0]).items] + CollapseAll(lists[1..]).lists,
                         CollapseAll(lists[1..]).threw)
  {
  }

  /** Index arithmetic for a sequence with a new head. */
  lemma ShiftedLists(lists: seq<seq<Item>>, head: seq<Item>, rest: seq<seq<Item>>)
    requires |lists| > 0 && |rest| == |lists| - 1
    ensures forall j :: 0 < j < |lists| ==> ([head] + rest)[j] == rest[j - 1]
    ensures forall j :: 0 < j < |lists| ==> lists[1..][j - 1] == lists[j]
  {
  }

  /** Collapsing every list twice leaves them as collapsing once does. */
  lemma {:induction false} CollapseAllIdempotent(lists: seq<seq<Item>>)
    ensures CollapseAll(CollapseAll(lists).lists) == CollapseAll(lists)
    decreases |lists|
  {
    if |lists| > 0 {
      var r := CollapseAll(lists);
      var first := CollapseList(lists[0]);
      CollapseListIdempotent(lists[0]);
      assert r.lists[0] == first.items;
      if first.threw {
        assert r.lists[1..] == lists[1..];
      } else {
        var rest := CollapseAll(lists[1..]);
        assert r.lists[1..] == rest.lists;
        CollapseAllIdempotent(lists[1..]);
      }
    }
  }
}

=== FILE: gesture.dfy ===
/**
 * The gesture classifier of the focus button (src/index.ts:149-183). Mouse
 * `click` and `contextmenu` map straight to the intents `left` and `right`.
 * Touch input goes through a small state machine: `touchstart` arms a 300 ms
 * timer and stores its handle; if the timer fires it marks the gesture as a
 * long press and emits `longPress`; `touchend` clears the stored timer and
 * emits `click` unless a long press was already emitted, in which case it only
 * resets the flag. Time itself is not modelled: the timer firing is an event.
 */
module Gesture {
  import opened Common

  /** The four logical intents handed to the dispatcher. */
  datatype Intent = Left | Right | Click | LongPress

  /** The string the source passes to `collapseDocTree` for each intent. */
  function Name(i: Intent): string {
    match i
    case Left => "left"
    case Right => "right"
    case Click => "click"
    case LongPress => "longPress"
  }

  /** Raw input on the button. `TimerFire(t)` is the callback of timer `t` running. */
  datatype Event = MouseClick | ContextMenu | TouchStart | TimerFire(timer: nat) | TouchEnd

  /**
   * `handle` is the stored timer handle (`longPressTimeout`), `armed` the timers
   * that are still scheduled, `nextTimer` the id the next `setTimeout` returns.
   */
  datatype State = State(handle: Option<nat>, armed: set<nat>, nextTimer: nat, isLongPress: bool)

  const Init: State := State(None, {}, 0, false)

  /** Timer ids are handed out in order, so every known id is below `nextTimer`. */
  predicate Valid(s: State) {
    && (forall t :: t in s.armed ==> t < s.nextTimer)
    && (s.handle.Some? ==> s.handle.value < s.nextTimer)
  }

  /** The state after one event and the intent, if any, it emits. */
  datatype Reaction = Reaction(state: State, intent: Option<Intent>)

  function Step(s: State, e: Event): (r: Reaction)
    ensures Valid(s) ==> Valid(r.state)
    ensures r.intent == Some(Left) <==> e.MouseClick?
    ensures r.intent == Some(Right) <==> e.ContextMenu?
    ensures r.intent == Some(LongPress) <==> e.TimerFire? && e.timer in s.armed
    ensures r.intent == Some(Click) <==> e.TouchEnd? && !s.isLongPress
    ensures e.TouchEnd? ==> !r.state.isLongPress
    ensures e.TouchEnd? && s.handle.Some? ==> s.handle.value !in r.state.armed
    ensures e.TimerFire? ==> e.timer !in r.state.armed
    ensures r.state.isLongPress ==> s.isLongPress || r.intent == Some(LongPress)
    // The mouse handlers never touch the touch state, and a timer that is no
    // longer armed does nothing when it fires.
    ensures e.MouseClick? || e.ContextMenu? || (e.TimerFire? && e.timer !in s.armed) ==> r.state == s
    // touchstart arms a fresh timer and overwrites the stored handle, leaving
    // the flag and every timer already armed as they were.
    ensures e.TouchStart? ==>
              && r.state.isLongPress == s.isLongPress
              && r.state.handle == Some(s.nextTimer)
              && s.armed <= r.state.armed
              && s.nextTimer in r.state.armed
    // touchend and a firing disarm only the stored handle or the firing timer.
    ensures e.TouchEnd? ==> r.state.armed <= s.armed && r.state.handle == s.handle
    ensures e.TouchEnd? && s.handle.None? ==> r.state.armed == s.armed
    ensures e.TouchEnd? && s.handle.Some? ==> s.armed - {s.handle.value} <= r.state.armed
    ensures e.TimerFire? ==> r.state.armed <= s.armed && s.armed - {e.timer} <= r.state.armed
    ensures !e.TouchStart? ==> r.state.nextTimer == s.nextTimer
  {
    match e
    case MouseClick => Reaction(s, Some(Left))
    case ContextMenu => Reaction(s, Some(Right))
    case TouchStart =>
      var t := s.nextTimer;
      Reaction(s.(handle := Some(t), armed := s.armed + {t}, nextTimer := t + 1), None)
    case TimerFire(t) =>
      if t in s.armed then Reaction(s.(armed := s.armed - {t}, isLongPress := true), Some(LongPress))
      else Reaction(s, None)
    case TouchEnd =>
      var cleared := if s.handle.Some? then s.armed - {s.handle.value} else s.armed;
      if s.isLongPress then Reaction(s.(armed := cleared, isLongPress := false), None)
      else Reaction(s.(armed := cleared), Some(Click))
  }

  function Emitted(o: Option<Intent>): seq<Intent> {
    if o.Some? then [o.value] else []
  }

  /** The final state after a sequence of events and the intents emitted on the way. */
  datatype Trace = Trace(state: State, intents: seq<Intent>)

  function Run(s: State, es: seq<Event>): (r: Trace)
    ensures Valid(s) ==> Valid(r.state)
    ensures |r.intents| <= |es|
    decreases |es|
  {
    if |es| == 0 then Trace(s, [])
    else
      var h := Step(s, es[0]);
      var t := Run(h.state, es[1..]);
      Trace(t.state, Emitted(h.intent) + t.intents)
  }

  /** Running two event sequences one after the other. */
  lemma {:induction false} RunAppend(s: State, a: seq<Event>, b: seq<Event>)
    ensures Run(s, a + b) == Trace(Run(Run(s, a).state, b).state,
                                   Run(s, a).intents + Run(Run(s, a).state, b).intents)
    decreases |a|
  {
    if |a| == 0 {
      assert a + b == b;
    } else {
      assert (a + b)[0] == a[0];
      assert (a + b)[1..] == a[1..] + b;
      RunAppend(Step(s, a[0]).state, a[1..], b);
    }
  }

  /**
   * A tap: touchstart then touchend with no timer firing in between clears the
   * timer it armed and emits exactly one `click`, and no `longPress`.
   */
  lemma {:induction false} TapEmitsClick(s: State)
    requires Valid(s) && !s.isLongPress
    ensures Run(s, [TouchStart, TouchEnd])
            == Trace(s.(handle := Some(s.nextTimer), nextTimer := s.nextTimer + 1), [Click])
    ensures s.nextTimer !in Run(s, [TouchStart, TouchEnd]).state.armed
    ensures Run(s, [TouchStart, TouchEnd]).state.armed == s.armed
    ensures !Run(s, [TouchStart, TouchEnd]).state.isLongPress
  {
    var t := s.nextTimer;
    assert t !in s.armed;
    var s1 := s.(handle := Some(t), armed := s.armed + {t}, nextTimer := t + 1);
    var s2 := s.(handle := Some(t), nextTimer := t + 1);
    assert Step(s, TouchStart) == Reaction(s1, None);
    assert s1.armed - {t} == s.armed;
    assert Step(s1, TouchEnd) == Reaction(s2, Some(Click));
    assert Run(s2, []) == Trace(s2, []);
    assert Run(s1, [TouchEnd]) == Trace(s2, [Click]);
    assert [TouchStart, TouchEnd][1..] == [TouchEnd];
  }

  /** The state after touchstart and the firing of the timer it armed. */
  function Held(s: State): State {
    s.(handle := Some(s.nextTimer), nextTimer := s.nextTimer + 1, isLongPress := true)
  }

  /** Touchstart, then its timer fires: one `longPress`, flag raised, no timer of this gesture left. */
  lemma {:induction false} HoldFires(s: State)
    requires Valid(s)
    ensures Run(s, [TouchStart, TimerFire(s.nextTimer)]) == Trace(Held(s), [LongPress])
  {
    var t := s.nextTimer;
    assert t !in s.armed;
    var s1 := s.(handle := Some(t), armed := s.armed + {t}, nextTimer := t + 1);
    assert Step(s, TouchStart) == Reaction(s1, None);
    assert s1.armed - {t} == s.armed;
    assert Step(s1, TimerFire(t)) == Reaction(Held(s), Some(LongPress));
    assert Run(Held(s), []) == Trace(Held(s), []);
    assert Run(s1, [TimerFire(t)]) == Trace(Held(s), [LongPress]);
    assert [TouchStart, TimerFire(t)][1..] == [TimerFire(t)];
  }

  /**
   * A hold: when the armed timer fires before touchend, the firing emits exactly
   * one `longPress` and sets the flag; the touchend emits nothing and clears it.
   */
  lemma {:induction false} HoldEmitsLongPress(s: State)
    requires Valid(s)
    ensures Run(s, [TouchStart, TimerFire(s.nextTimer)]).intents == [LongPress]
    ensures Run(s, [TouchStart, TimerFire(s.nextTimer)]).state.isLongPress
    ensures Run(s, [TouchStart, TimerFire(s.nextTimer), TouchEnd])
            == Trace(Held(s).(isLongPress := false), [LongPress])
    ensures Run(s, [TouchStart, TimerFire(s.nextTimer), TouchEnd]).state.armed == s.armed
    ensures !Run(s, [TouchStart, TimerFire(s.nextTimer), TouchEnd]).state.isLongPress
  {
    var t := s.nextTimer;
    HoldFires(s);
    assert [TouchStart, TimerFire(t), TouchEnd] == [TouchStart, TimerFire(t)] + [TouchEnd];
    RunAppend(s, [TouchStart, TimerFire(t)], [TouchEnd]);
    var h := Held(s);
    assert t !in s.armed;
    assert Step(h, TouchEnd) == Reaction(h.(isLongPress := false), None);
    assert Run(h, [TouchEnd]) == Trace(h.(isLongPress := false), []);
  }

  /** A disarmed timer known to the classifier stays disarmed, whatever events follow. */
  lemma {:induction false} FiredStaysDisarmed(s: State, t: nat, es: seq<Event>)
    requires Valid(s) && t < s.nextTimer && t !in s.armed
    ensures t !in Run(s, es).state.armed
    decreases |es|
  {
    if |es| > 0 {
      FiredStaysDisarmed(Step(s, es[0]).state, t, es[1..]);
    }
  }

  /**
   * A timer callback emits at most once: after timer `t` has fired, a later
   * firing of `t`, after any events in between, emits nothing.
   */
  lemma TimerFiresOnce(s: State, t: nat, es: seq<Event>)
    requires Valid(s) && t in s.armed
    ensures Step(s, TimerFire(t)).intent == Some(LongPress)
    ensures Step(Run(Step(s, TimerFire(t)).state, es).state, TimerFire(t)).intent == None
  {
    FiredStaysDisarmed(Step(s, TimerFire(t)).state, t, es);
  }

  /** A single-finger gesture: released before the timer fires, or held until it fires. */
  datatype TouchKind = Tap | Hold

  function IntentOf(g: TouchKind): Intent {
    if g.Tap? then Click else LongPress
  }

  /** The events of one gesture whose touchstart arms timer `t`. */
  function EventsOf(g: TouchKind, t: nat): seq<Event> {
    if g.Tap? then [TouchStart, TouchEnd] else [TouchStart, TimerFire(t), TouchEnd]
  }

  /** The events of a run of gestures, the first arming timer `t`. */
  function GestureEvents(gs: seq<TouchKind>, t: nat): seq<Event>
    decreases |gs|
  {
    if |gs| == 0 then [] else EventsOf(gs[0], t) + GestureEvents(gs[1..], t + 1)
  }

  /** The intents a run of gestures should produce: one per gesture, in order. */
  function IntentsOf(gs: seq<TouchKind>): seq<Intent>
    decreases |gs|
  {
    if |gs| == 0 then [] else [IntentOf(gs[0])] + IntentsOf(gs[1..])
  }

  /** The classifier after a complete gesture whose touchstart armed the next timer. */
  function After(s: State): State {
    s.(handle := Some(s.nextTimer), nextTimer := s.nextTimer + 1, isLongPress := false)
  }

  /** One gesture from an idle classifier: its one intent, and idle again with the next timer id. */
  lemma {:induction false} OneGesture(s: State, g: TouchKind)
    requires Valid(s) && !s.isLongPress
    ensures Run(s, EventsOf(g, s.nextTimer)) == Trace(After(s), [IntentOf(g)])
  {
    if g.Tap? {
      TapEmitsClick(s);
    } else {
      HoldEmitsLongPress(s);
    }
  }

  /**
   * Every single-finger gesture emits exactly its one intent, in order, with no
   * double firing, and leaves the classifier ready for the next gesture.
   */
  lemma {:induction false} GesturesClassified(s: State, gs: seq<TouchKind>)
    requires Valid(s) && !s.isLongPress
    ensures Run(s, GestureEvents(gs, s.nextTimer)).intents == IntentsOf(gs)
    ensures !Run(s, GestureEvents(gs, s.nextTimer)).state.isLongPress
    ensures Run(s, GestureEvents(gs, s.nextTimer)).state.armed == s.armed
    decreases |gs|
  {
    if |gs| > 0 {
      var first := EventsOf(gs[0], s.nextTimer);
      var rest := GestureEvents(gs[1..], s.nextTimer + 1);
      RunAppend(s, first, rest);
      OneGesture(s, gs[0]);
      GesturesClassified(After(s), gs[1..]);
    }
  }

  /**
   * Two overlapping touches as the code is written: the second touchstart
   * overwrites the stored handle without clearing the first timer, so the first
   * touchend emits `click` and the orphaned timer later emits `longPress`.
   */
  lemma OverlappingTouches()
    ensures Run(Init, [TouchStart, TouchStart, TouchEnd, TimerFire(0), TouchEnd]).intents
            == [Click, LongPress]
  {
    var es := [TouchStart, TouchStart, TouchEnd, TimerFire(0), TouchEnd];
    assert es[1..] == [TouchStart, TouchEnd, TimerFire(0), TouchEnd];
    assert es[1..][1..] == [TouchEnd, TimerFire(0), TouchEnd];
    assert es[1..][1..][1..] == [TimerFire(0), TouchEnd];
    assert es[1..][1..][1..][1..] == [TouchEnd];
  }
}

=== FILE: label.dfy ===
/**
 * The focus button's hover label (`aria-label`) rewriter, `changeButtonText`
 * (src/index.ts:133-147). On the first call it records the label as found; when
 * label rewriting is on it writes the mode string matching the desktop fold key;
 * when it is off it puts the recorded label back, except on the first call. On
 * mobile there is no hover label and nothing happens.
 */
module ButtonLabel {
  import opened Common
  import opened Config

  /**
   * The two mode strings come from the plugin's translations; they stand here
   * as distinct opaque texts named after their translation keys.
   */
  const TextRight: string := "buttonTextRight"
  const TextLeft: string := "buttonTextLeft"

  /** What `setAttribute` writes when handed the never-assigned original. */
  const UndefinedText: string := "undefined"

  /** The button's current label and the label recorded on the first call, if any. */
  datatype Label = Label(current: string, original: Option<string>)

  /** The text a restore writes: the recorded label, or `undefined` if none was recorded. */
  function Recorded(l: Label): string {
    if l.original.Some? then l.original.value else UndefinedText
  }

  function Rewrite(isMobile: bool, l: Label, cfg: Config, isFirst: bool): (r: Label)
    ensures isMobile ==> r == l
    ensures !isMobile ==> r.original == (if isFirst then Some(l.current) else l.original)
    ensures !isMobile && cfg.changeButtonText ==>
              (r.current == TextRight <==> cfg.desktopFoldKey == "right")
              && (r.current == TextLeft <==> cfg.desktopFoldKey != "right")
    ensures !isMobile && !cfg.changeButtonText && isFirst ==> r.current == l.current
    ensures !isMobile && !cfg.changeButtonText && !isFirst ==> r.current == Recorded(l)
  {
    if isMobile then l
    else
      var original := if isFirst then Some(l.current) else l.original;
      if cfg.changeButtonText then
        Label(if cfg.desktopFoldKey == "right" then TextRight else TextLeft, original)
      else if !isFirst && l.original != Some(l.current) then
        Label(Recorded(l), original)
      else
        Label(l.current, original)
  }

  /** Later calls (settings confirmations), one per configuration, after a first call. */
  function RewriteAll(isMobile: bool, l: Label, cfgs: seq<Config>): (r: Label)
    decreases |cfgs|
  {
    if |cfgs| == 0 then l else RewriteAll(isMobile, Rewrite(isMobile, l, cfgs[0], false), cfgs[1..])
  }

  /**
   * The recorded label never changes after the first call, and whenever the
   * last configuration applied turns rewriting off, the button shows the label
   * it had before the plugin touched it.
   */
  lemma {:induction false} OriginalRestored(text: string, first: Config, cfgs: seq<Config>)
    ensures RewriteAll(false, Rewrite(false, Label(text, None), first, true), cfgs).original == Some(text)
    ensures |cfgs| > 0 && !cfgs[|cfgs| - 1].changeButtonText ==>
              RewriteAll(false, Rewrite(false, Label(text, None), first, true), cfgs).current == text
    ensures |cfgs| == 0 && !first.changeButtonText ==>
              RewriteAll(false, Rewrite(false, Label(text, None), first, true), cfgs).current == text
  {
    KeepsOriginal(Rewrite(false, Label(text, None), first, true), text, cfgs);
  }

  lemma {:induction false} KeepsOriginal(l: Label, text: string, cfgs: seq<Config>)
    requires l.original == Some(text)
    ensures RewriteAll(false, l, cfgs).original == Some(text)
    ensures |cfgs| > 0 && !cfgs[|cfgs| - 1].changeButtonText ==> RewriteAll(false, l, cfgs).current == text
    decreases |cfgs|
  {
    if |cfgs| > 0 {
      var l' := Rewrite(false, l, cfgs[0], false);
      KeepsOriginal(l', text, cfgs[1..]);
      if |cfgs| > 1 {
        assert cfgs[1..][|cfgs| - 2] == cfgs[|cfgs| - 1];
      }
    }
  }

  /**
   * With rewriting off from the start, the label shown after every later call
   * is the label the button had before the plugin loaded.
   */
  lemma NeverRewrittenWhenOff(text: string, first: Config, cfgs: seq<Config>)
    requires !first.changeButtonText
    requires forall i :: 0 <= i < |cfgs| ==> !cfgs[i].changeButtonText
    ensures forall n :: 0 <= n <= |cfgs| ==>
              RewriteAll(false, Rewrite(false, Label(text, None), first, true), cfgs[..n]).current == text
  {
    forall n | 0 <= n <= |cfgs|
      ensures RewriteAll(false, Rewrite(false, Label(text, None), first, true), cfgs[..n]).current == text
    {
      OriginalRestored(text, first, cfgs[..n]);
    }
  }

  /** Applying the same configuration again leaves the label as it is. */
  lemma RewriteIdempotent(isMobile: bool, l: Label, cfg: Config)
    ensures Rewrite(isMobile, Rewrite(isMobile, l, cfg, false), cfg, false) == Rewrite(isMobile, l, cfg, false)
  {
  }

  /** On mobile the label is never touched, whatever is applied. */
  lemma {:induction false} MobileUntouched(l: Label, cfgs: seq<Config>)
    ensures RewriteAll(true, l, cfgs) == l
    decreases |cfgs|
  {
    if |cfgs| > 0 {
      MobileUntouched(l, cfgs[1..]);
    }
  }
}

=== FILE: plugin.dfy ===
/**
 * The plugin as a whole (src/index.ts): the handlers wired to the focus button
 * at layout-ready, the dispatch of an intent to "collapse then reveal" or
 * "reveal only" (`collapseDocTree`), the reveal itself (`expandDocTree`) with
 * its listener detach/re-attach protocol, and the settings-confirm step.
 *
 * The host's reveal (the native handler of the focus button) is external: it is
 * counted in `revealCount`, and what it does to the tree is the host's business.
 * Deferred work (the zero-delay re-attach, the long-press timer) arrives as
 * inputs of its own rather than on a clock.
 */
module Plugin {
  import opened Common
  import Config
  import Gesture
  import FileTree
  import ButtonLabel

  /**
   * `hasButton`: the focus button was found at layout-ready. `clickListener`:
   * the left-click handler is attached to it (the other three handlers stay
   * attached whenever the button exists). `pendingReattach`: zero-delay
   * re-attach callbacks scheduled and not yet run. `revealCount`: programmatic
   * activations of the button, each running the host's native reveal.
   */
  datatype Plugin = Plugin(
    isMobile: bool,
    config: Config.Config,
    hasButton: bool,
    clickListener: bool,
    pendingReattach: nat,
    gesture: Gesture.State,
    lists: seq<seq<FileTree.Item>>,
    hoverLabel: ButtonLabel.Label,
    revealCount: nat)

  /** The state after handling one input, and whether the handler threw. */
  datatype Outcome = Outcome(plugin: Plugin, threw: bool)

  /** Input on the plugin: a button event, the deferred re-attach running, or a settings confirmation. */
  datatype Input = User(event: Gesture.Event) | Deferred | ApplySetting(cfg: Config.Config)

  /**
   * The left-click handler is attached or about to be re-attached; only a
   * found button carries handlers or schedules re-attaches; timer ids are sane.
   */
  predicate Inv(p: Plugin) {
    && (p.clickListener ==> p.hasButton)
    && (p.hasButton ==> p.clickListener || p.pendingReattach > 0)
    && (!p.hasButton ==> p.pendingReattach == 0)
    && Gesture.Valid(p.gesture)
  }

  /**
   * Layout-ready: with the button's label `button` (None when neither selector
   * finds the button) all four handlers are attached and the label rewriter
   * runs for the first time; without it nothing is attached.
   */
  function LayoutReady(isMobile: bool, config: Config.Config, button: Option<string>,
                       lists: seq<seq<FileTree.Item>>): (p: Plugin)
    ensures Inv(p)
    ensures p.hasButton <==> button.Some?
    ensures p.clickListener <==> button.Some?
    ensures p.gesture == Gesture.Init && p.revealCount == 0 && p.pendingReattach == 0
    ensures button.Some? && !isMobile ==> p.hoverLabel.original == Some(button.value)
    ensures button.Some? && isMobile ==> p.hoverLabel == ButtonLabel.Label(button.value, None)
    ensures button.Some? ==>
              p.hoverLabel == ButtonLabel.Rewrite(isMobile, ButtonLabel.Label(button.value, None), config, true)
    ensures p.config == config && p.lists == lists && p.isMobile == isMobile
  {
    match button
    case None =>
      Plugin(isMobile, config, false, false, 0, Gesture.Init, lists, ButtonLabel.Label("", None), 0)
    case Some(text) =>
      var shown := ButtonLabel.Rewrite(isMobile, ButtonLabel.Label(text, None), config, true);
      Plugin(isMobile, config, true, true, 0, Gesture.Init, lists, shown, 0)
  }

  /** Whether an intent selects the collapse branch: it equals one of the two fold keys. */
  predicate Folds(cfg: Config.Config, intent: Gesture.Intent) {
    Gesture.Name(intent) == cfg.desktopFoldKey || Gesture.Name(intent) == cfg.mobileFoldKey
  }

  /**
   * The host's native handler runs on a programmatic activation of the button.
   * The activating click must not reach the plugin's own left-click handler,
   * so the handler has to be detached before the activation.
   */
  function Activate(p: Plugin): (r: Plugin)
    requires !p.clickListener
    ensures r.revealCount == p.revealCount + 1 && !r.clickListener
  {
    p.(revealCount := p.revealCount + 1)
  }

  /**
   * `expandDocTree`: without a button, nothing. Otherwise detach the
   * left-click handler, activate the button while it is detached, and schedule
   * the re-attach.
   */
  function Expand(p: Plugin): (r: Plugin)
    ensures !p.hasButton ==> r == p
    ensures p.hasButton ==>
              (!r.clickListener && r.revealCount == p.revealCount + 1
               && r.pendingReattach == p.pendingReattach + 1)
    ensures r.hasButton == p.hasButton && r.config == p.config && r.gesture == p.gesture
    ensures r.lists == p.lists && r.hoverLabel == p.hoverLabel && r.isMobile == p.isMobile
  {
    if !p.hasButton then p
    else
      var detached := p.(clickListener := false);
      Activate(detached).(pendingReattach := p.pendingReattach + 1)
  }

  /** The zero-delay callback scheduled by `Expand`: attach the left-click handler again. */
  function Reattach(p: Plugin): (r: Plugin)
    ensures p.pendingReattach > 0 ==> r.clickListener && r.pendingReattach == p.pendingReattach - 1
    ensures p.pendingReattach == 0 ==> r == p
    ensures r.(clickListener := p.clickListener, pendingReattach := p.pendingReattach) == p
  {
    if p.pendingReattach > 0 then p.(clickListener := true, pendingReattach := p.pendingReattach - 1)
    else p
  }

  /**
   * `collapseDocTree`: an intent matching a fold key first runs the collapse
   * pass over every top-level list, then the reveal; any other intent only
   * reveals. A throw in the pass propagates, so no reveal follows it.
   */
  function CollapseDocTree(p: Plugin, intent: Gesture.Intent): (r: Outcome)
    ensures !Folds(p.config, intent) ==> r.plugin.lists == p.lists && !r.threw
    ensures Folds(p.config, intent) ==> r.plugin.lists == FileTree.CollapseAll(p.lists).lists
    ensures r.threw <==> Folds(p.config, intent) && FileTree.CollapseAll(p.lists).threw
    ensures !r.threw && p.hasButton ==>
              (r.plugin.revealCount == p.revealCount + 1 && !r.plugin.clickListener
               && r.plugin.pendingReattach == p.pendingReattach + 1)
    ensures r.threw || !p.hasButton ==>
              (r.plugin.revealCount == p.revealCount && r.plugin.pendingReattach == p.pendingReattach
               && r.plugin.clickListener == p.clickListener)
    ensures r.plugin.config == p.config && r.plugin.gesture == p.gesture && r.plugin.hoverLabel == p.hoverLabel
    ensures r.plugin.hasButton == p.hasButton && r.plugin.isMobile == p.isMobile
  {
    if !Folds(p.config, intent) then Outcome(Expand(p), false)
    else
      var pass := FileTree.CollapseAll(p.lists);
      if pass.threw then Outcome(p.(lists := pass.lists), true)
      else Outcome(Expand(p.(lists := pass.lists)), false)
  }

  /**
   * Whether a handler runs for a button event: the left-click handler only
   * while attached; a timer callback whenever it fires; the others whenever
   * the button was found.
   */
  predicate Listening(p: Plugin, e: Gesture.Event) {
    if e.MouseClick? then p.clickListener else if e.TimerFire? then true else p.hasButton
  }

  function Handle(p: Plugin, input: Input): (r: Outcome)
    ensures input.Deferred? ==> r == Outcome(Reattach(p), false)
    ensures input.ApplySetting? ==> r.plugin.config == input.cfg
    ensures input.ApplySetting? ==> (r.threw <==> !p.isMobile && !p.hasButton)
    ensures input.ApplySetting? && !p.isMobile && p.hasButton ==>
              r.plugin.hoverLabel == ButtonLabel.Rewrite(false, p.hoverLabel, input.cfg, false)
    ensures input.ApplySetting? && p.isMobile ==> r.plugin.hoverLabel == p.hoverLabel
    ensures input.ApplySetting? ==>
              (r.plugin.lists == p.lists && r.plugin.gesture == p.gesture
               && r.plugin.clickListener == p.clickListener && r.plugin.revealCount == p.revealCount
               && r.plugin.pendingReattach == p.pendingReattach)
    ensures input.ApplySetting? ==> r.plugin.isMobile == p.isMobile && r.plugin.hasButton == p.hasButton
    ensures input.ApplySetting? && r.threw ==> r.plugin.hoverLabel == p.hoverLabel
    ensures input.User? && !Listening(p, input.event) ==> r == Outcome(p, false)
    ensures input.User? && Listening(p, input.event) ==>
              r == (var st := Gesture.Step(p.gesture, input.event);
                    if st.intent.None? then Outcome(p.(gesture := st.state), false)
                    else CollapseDocTree(p.(gesture := st.state), st.intent.value))
  {
    match input
    case User(e) =>
      if !Listening(p, e) then Outcome(p, false)
      else
        var step := Gesture.Step(p.gesture, e);
        var q := p.(gesture := step.state);
        if step.intent.None? then Outcome(q, false) else CollapseDocTree(q, step.intent.value)
    case Deferred => Outcome(Reattach(p), false)
    case ApplySetting(cfg) =>
      var q := p.(config := cfg);
      if p.isMobile then Outcome(q, false)
      else if !p.hasButton then Outcome(q, true)
      else Outcome(q.(hoverLabel := ButtonLabel.Rewrite(false, p.hoverLabel, cfg, false)), false)
  }

  /** Every handler keeps the invariant, whether or not it throws. */
  lemma HandlePreservesInv(p: Plugin, input: Input)
    requires Inv(p)
    ensures Inv(Handle(p, input).plugin)
  {
    if input.User? && Listening(p, input.event) {
      var step := Gesture.Step(p.gesture, input.event);
      var q := p.(gesture := step.state);
      assert Inv(q);
    }
  }

  /** A run of inputs; a throwing handler does not stop later inputs. */
  function RunInputs(p: Plugin, inputs: seq<Input>): Plugin
    decreases |inputs|
  {
    if |inputs| == 0 then p else RunInputs(Handle(p, inputs[0]).plugin, inputs[1..])
  }

  /** From layout-ready on, the invariant holds after any run of inputs. */
  lemma {:induction false} InvAlways(p: Plugin, inputs: seq<Input>)
    requires Inv(p)
    ensures Inv(RunInputs(p, inputs))
    decreases |inputs|
  {
    if |inputs| > 0 {
      HandlePreservesInv(p, inputs[0]);
      InvAlways(Handle(p, inputs[0]).plugin, inputs[1..]);
    }
  }

  /** Running every scheduled re-attach. */
  function Settle(p: Plugin): Plugin
    decreases p.pendingReattach
  {
    if p.pendingReattach == 0 then p else Settle(Reattach(p))
  }

  /** Once the scheduled re-attaches have run, the left-click handler is attached again. */
  lemma {:induction false} SettleAttaches(p: Plugin)
    requires Inv(p) && p.hasButton
    ensures Settle(p).clickListener && Settle(p).pendingReattach == 0
    ensures Settle(p).lists == p.lists && Settle(p).revealCount == p.revealCount
    decreases p.pendingReattach
  {
    if p.pendingReattach > 0 {
      SettleAttaches(Reattach(p));
    }
  }

  /** A click while the left-click handler is detached reaches no plugin handler. */
  lemma DetachedClickIgnored(p: Plugin)
    requires !p.clickListener
    ensures Handle(p, User(Gesture.MouseClick)) == Outcome(p, false)
  {
  }

  /**
   * The reveal protocol. `Expand` can only activate the button on a state
   * whose left-click handler is detached (the precondition of `Activate`), so
   * the activating click never re-enters the dispatch; it counts as one
   * reveal. Until the deferred step runs, a further click is ignored too; the
   * deferred step then re-attaches the handler, leaving everything but the
   * reveal count as it was.
   */
  lemma ExpandProtocol(p: Plugin)
    requires p.hasButton
    ensures Handle(Expand(p), User(Gesture.MouseClick)) == Outcome(Expand(p), false)
    ensures Expand(p).revealCount == p.revealCount + 1
    ensures Reattach(Expand(p)) == p.(clickListener := true, revealCount := p.revealCount + 1)
  {
  }

  /**
   * Running the dispatch twice with nothing in between leaves the tree as the
   * first run left it. This is a statement about the model, where the reveal
   * does not touch the lists; in the running program the host's reveal between
   * the two dispatches reopens the active document's branch, which the second
   * pass then closes again.
   */
  lemma DispatchTwiceSameTree(p: Plugin, intent: Gesture.Intent)
    ensures CollapseDocTree(CollapseDocTree(p, intent).plugin, intent).plugin.lists
            == CollapseDocTree(p, intent).plugin.lists
  {
    if Folds(p.config, intent) {
      FileTree.CollapseAllIdempotent(p.lists);
    }
  }

  /** The default configuration folds on right-click and long press, and on nothing else. */
  lemma DefaultFoldKeys(lang: string, intent: Gesture.Intent)
    ensures Folds(Config.Load(Config.Falsy, lang), intent) <==> intent == Gesture.Right || intent == Gesture.LongPress
  {
  }

  /**
   * Mouse input under the default configuration: a right-click on the button
   * collapses every list and reveals; a left-click, when its handler is
   * attached, only reveals.
   */
  lemma MouseDispatchWithDefaults(p: Plugin, lang: string)
    requires p.hasButton && p.config == Config.Load(Config.Falsy, lang)
    requires !FileTree.CollapseAll(p.lists).threw
    ensures Handle(p, User(Gesture.ContextMenu)).plugin.lists == FileTree.CollapseAll(p.lists).lists
    ensures Handle(p, User(Gesture.ContextMenu)).plugin.revealCount == p.revealCount + 1
    ensures p.clickListener ==> Handle(p, User(Gesture.MouseClick)).plugin.lists == p.lists
    ensures p.clickListener ==> Handle(p, User(Gesture.MouseClick)).plugin.revealCount == p.revealCount + 1
  {
    DefaultFoldKeys(lang, Gesture.Right);
    DefaultFoldKeys(lang, Gesture.Left);
  }

  /**
   * A hold on a found button: the firing of the armed timer dispatches
   * `longPress` exactly once, and the touchend that follows dispatches nothing
   * and leaves the tree and the reveal count as the firing left them.
   */
  lemma HoldDispatchesOnce(p: Plugin)
    requires Inv(p) && p.hasButton
    ensures RunInputs(p, [User(Gesture.TouchStart), User(Gesture.TimerFire(p.gesture.nextTimer)),
                          User(Gesture.TouchEnd)]).lists
            == (if Folds(p.config, Gesture.LongPress) then FileTree.CollapseAll(p.lists).lists else p.lists)
    ensures !(Folds(p.config, Gesture.LongPress) && FileTree.CollapseAll(p.lists).threw) ==>
              RunInputs(p, [User(Gesture.TouchStart), User(Gesture.TimerFire(p.gesture.nextTimer)),
                            User(Gesture.TouchEnd)]).revealCount == p.revealCount + 1
    ensures !RunInputs(p, [User(Gesture.TouchStart), User(Gesture.TimerFire(p.gesture.nextTimer)),
                           User(Gesture.TouchEnd)]).gesture.isLongPress
  {
    var t := p.gesture.nextTimer;
    var inputs := [User(Gesture.TouchStart), User(Gesture.TimerFire(t)), User(Gesture.TouchEnd)];
    assert t !in p.gesture.armed;
    var p1 := Handle(p, inputs[0]).plugin;
    assert p1 == p.(gesture := Gesture.Step(p.gesture, Gesture.TouchStart).state);
    assert t in p1.gesture.armed;
    var st := Gesture.Step(p1.gesture, Gesture.TimerFire(t));
    assert st.intent == Some(Gesture.LongPress);
    var r2 := CollapseDocTree(p1.(gesture := st.state), Gesture.LongPress);
    assert Handle(p1, inputs[1]) == r2;
    var p2 := r2.plugin;
    assert p2.gesture.isLongPress;
    var st3 := Gesture.Step(p2.gesture, Gesture.TouchEnd);
    assert st3.intent.None?;
    var p3 := p2.(gesture := st3.state);
    assert Handle(p2, inputs[2]) == Outcome(p3, false);
    assert inputs[1..] == [inputs[1], inputs[2]];
    assert inputs[1..][1..] == [inputs[2]];
    assert inputs[1..][1..][1..] == [];
    assert RunInputs(p2, [inputs[2]]) == p3;
    assert RunInputs(p, inputs) == p3;
  }

  /**
   * A tap on a found button with the classifier idle runs the dispatch exactly
   * once, with the `click` intent: one reveal, unless the pass throws.
   */
  lemma TapDispatchesOnce(p: Plugin)
    requires Inv(p) && p.hasButton && !p.gesture.isLongPress
    ensures RunInputs(p, [User(Gesture.TouchStart), User(Gesture.TouchEnd)]).lists
            == (if Folds(p.config, Gesture.Click) then FileTree.CollapseAll(p.lists).lists else p.lists)
    ensures !(Folds(p.config, Gesture.Click) && FileTree.CollapseAll(p.lists).threw) ==>
              RunInputs(p, [User(Gesture.TouchStart), User(Gesture.TouchEnd)]).revealCount == p.revealCount + 1
  {
    var inputs := [User(Gesture.TouchStart), User(Gesture.TouchEnd)];
    var p1 := Handle(p, inputs[0]).plugin;
    assert p1 == p.(gesture := Gesture.Step(p.gesture, Gesture.TouchStart).state);
    var step := Gesture.Step(p1.gesture, Gesture.TouchEnd);
    assert step.intent == Some(Gesture.Click);
    var r := CollapseDocTree(p1.(gesture := step.state), Gesture.Click);
    assert Handle(p1, inputs[1]) == r;
    assert inputs[1..][1..] == [];
    assert RunInputs(p, inputs) == r.plugin;
  }
}
